=== FILE: README.md ===
# Face-attention hook: a Dafny model

This project models the attention logic of a set of browser pages that drive a video
player from an on-device face-landmark detector. It covers three parts:

- the `useFaceLandmarks` hook in its two versions:
  - `app/modules/use-face-landmarks.ts` (the *weighted* variant);
  - `app/modules/use-face-landmarks.tsx` (the *two-level* variant);
- the small bounded counter `useQueuedAttention`.

The hook keeps an eight-field state record. Its effect:

1. passes a permission gate: secure context, then the browser APIs, then the camera
   permission query;
2. opens the camera stream and loads the model;
3. runs `detectFaces`, a loop that calls itself again on every animation frame.

Each tick publishes whether someone is watching, the eye status and an attentiveness score.

The two hook files share the record, the gate, the setup and the shape of a tick. They differ
only in how a detected face is scored:

- **Weighted** (`.ts`). The eye check only asks whether keypoint 263 exists. The score is
  `60 + (eye 0.5 + yaw 0.3 + roll 0.2) * 40`, clamped and rounded.
- **Two-level** (`.tsx`). An eye is open when its eyelid keypoints are more than 7 pixels apart
  vertically. The score is 100 with both eyes open and 50 otherwise.

`Detection.Variant` selects the policy. The two are kept apart and never assumed equivalent.

## Modules

- `FaceState` (state.dfy) holds the state record, its initial value, the consistency
  predicate (`!isWatching ==> attentiveness == 0`, `cameraStatus == Error ==> !isWatching`) and
  the face samples the detector returns.
- `Permission` (permission.dfy) holds `checkAndRequestPermission` as a pure composition of its
  `setState` updaters. It also defines `String.prototype.includes`, proved to be substring
  containment.
- `WeightedAttention` (weighted_attention.dfy) and `ThresholdAttention`
  (threshold_attention.dfy) are the two face policies.
- `Decimal` (decimal.dfy) is the decimal text of the score in the status line.
- `Detection` (detection.dfy) holds the tick updaters, one tick of `detectFaces` (the updaters
  after one `await` taken as a unit, plus a reschedule flag) and runs of consecutive ticks.
- `Setup` (setup.dfy) holds `setupFaceDetection` and a whole session: setup, then ticks.
- `Hook` (hook.dfy) is the hook as an object:
  - the state cell and the effect's `let` locals (`detector`, `stream`, `animationFrameId`)
    become fields;
  - each async function becomes a method that applies its updaters one after another;
  - each method is proved to leave exactly the state the pure model computes, and to keep the
    object invariant;
  - the self-rescheduling loop is a `while` loop over a sequence of frames.
- `QueuedAttention` (queued_attention.dfy) is the counter as a class with a guarded setter,
  and lemmas about any number of calls.

External inputs are parameters of the model:

- the page location and the API presence (`Permission.Browser`);
- the outcome of the permission query;
- the outcome of `getUserMedia` and of the model load (`Setup.SetupOutcome`);
- what `estimateFaces` returns (`FaceState.Estimate`);
- whether `videoRef.current` is set;
- the clock reading `new Date()` takes (an `int`).

### Behaviour of the code worth noting

- A rejected estimate leaves `eyeStatus` as it was, so `!isWatching` does not imply
  `eyeStatus == Unknown`: after open eyes, a rejected estimate gives a state where nobody is
  watching but the eyes still read "open" (`Detection.ErrorLeavesEyeStatusStale`). What does
  hold, and is proved for every run of ticks, is that nobody watching implies
  `attentiveness == 0`, and that somebody watching implies a known eye status and a nonzero
  attentiveness (`Unknown` is only set together with `isWatching = false`).
- In the weighted variant the eye check does not measure eyelids. It is a presence test of
  keypoint indices (`WeightedAttention.CheckEyesOpen`: true iff there are more than 263
  keypoints).
- In the weighted variant a face whose `rotation` has no `angle` makes the rotation read throw.
  The tick then goes down its error path after it has already recorded the sample time. So a
  detected face can still publish `isWatching = false` (`Detection.WeightedRotationThrows`).
- When the model fails to load after the stream was opened, the setup ends in a camera error
  while the stream stays open until the effect's cleanup runs (`streamOpened` true,
  `detectorReady` false in `Setup.SetupFaceDetection`).

## Model

| member | source | states |
|---|---|---|
| FaceState.InitialConsistent | app/modules/use-face-landmarks.ts:18-27 | The initial record: not watching, camera initializing, permission prompt, eyes unknown, attentiveness 0, no detection time, empty error; it is consistent |
| Permission.IncludesIsSubstring | app/modules/use-face-landmarks.ts:32-35 | `includes` holds iff the needle occurs at some position of the string |
| Permission.CheckAndRequestPermission | app/modules/use-face-landmarks.ts:30-77 | Granted iff secure context, both APIs present and a query answered other than "denied"; a refusal is always a camera error; a grant changes only the recorded permission; the HTTPS message is given exactly for an insecure context; the query's answer is recorded whenever the query ran, otherwise the permission is untouched; no field other than lastError, cameraStatus, permissionStatus changes |
| Permission.InsecureContextCheckedFirst | app/modules/use-face-landmarks.ts:32-42 | In an insecure context the result does not depend on the APIs or the query: false, HTTPS message, camera error, permission unchanged |
| Permission.MissingApisCheckedBeforeQuery | app/modules/use-face-landmarks.ts:44-51 | In a secure context with an API missing, the query has no say: false, unsupported message, camera error, permission unchanged |
| Permission.QueryOutcomes | app/modules/use-face-landmarks.ts:53-76 | "denied" is recorded and refused with the reset message; a rejected query is refused with "Failed to check camera permissions" and records nothing |
| Permission.GateKeepsConsistent | app/modules/use-face-landmarks.tsx:31-80 | The gate keeps the state consistent and leaves nobody watching when it starts from nobody watching |
| Permission.InsecurePageScenario | app/modules/use-face-landmarks.tsx:33-44 | An `http:` page on `example.com` is refused with the HTTPS message before any query, the permission still "prompt" |
| Decimal.Show | app/modules/use-face-landmarks.ts:203 | The score's decimal text is non-empty, all digits, without a leading zero, one digit exactly below 10 |
| Decimal.ValueOfShow | app/modules/use-face-landmarks.ts:203 | The decimal text reads back as the number it shows |
| Decimal.ShowInjective | app/modules/use-face-landmarks.tsx:198 | Different numbers give different numerals |
| WeightedAttention.CheckEyesOpen | app/modules/use-face-landmarks.ts:80-89 | The eye check holds iff the keypoint array has more than 263 entries |
| WeightedAttention.EyeCheckIgnoresCoordinates | app/modules/use-face-landmarks.ts:82-84 | Two keypoint arrays of equal length get the same eye verdict, whatever their coordinates |
| WeightedAttention.ReadRotation | app/modules/use-face-landmarks.ts:181-182 | Reading the rotation throws iff `rotation` exists without `angle`; a missing rotation reads as zero yaw and roll |
| WeightedAttention.NormalizedRotation | app/modules/use-face-landmarks.ts:184-185 | The normalised term is in [0,1], equals 1 iff the angle is 0, equals 0 iff the absolute angle reaches the span (30 for yaw, 20 for roll), and is linear in between |
| WeightedAttention.Score | app/modules/use-face-landmarks.ts:187-197 | With a face present the clamped score is within [60,100] |
| WeightedAttention.ClampNeverBinds | app/modules/use-face-landmarks.ts:187-197 | The clamp to [0,100] never changes the weighted total |
| WeightedAttention.Round | app/modules/use-face-landmarks.ts:202 | `Math.round`: the integer within half a unit, halves rounded up |
| WeightedAttention.RoundMonotone | app/modules/use-face-landmarks.ts:202 | Rounding preserves order |
| WeightedAttention.Attentiveness | app/modules/use-face-landmarks.ts:202 | The published attentiveness for a face is an integer within [60,100] |
| WeightedAttention.UprightFace | app/modules/use-face-landmarks.ts:187-197 | With yaw = roll = 0 the attentiveness is 100 with open eyes and 80 with closed ones |
| WeightedAttention.FaceTurnedAway | app/modules/use-face-landmarks.ts:184-197 | At or beyond 30 degrees of yaw and 20 of roll the attentiveness is 60 with closed eyes and 80 with open ones |
| WeightedAttention.OpenEyesAddTwenty | app/modules/use-face-landmarks.ts:192-195 | For any head pose, open eyes add exactly 20 points |
| WeightedAttention.NormalizedRotationAntitone | app/modules/use-face-landmarks.ts:184-185 | A larger absolute angle never gives a larger normalised term |
| WeightedAttention.ScoreNeverRisesWithRotation | app/modules/use-face-landmarks.ts:184-202 | With the eye flag fixed, the attentiveness never increases as the absolute yaw or roll grows |
| ThresholdAttention.VerticalGap | app/modules/use-face-landmarks.tsx:88 | The gap is the absolute vertical distance of the two keypoints |
| ThresholdAttention.IsEyeOpen | app/modules/use-face-landmarks.tsx:87-91 | An eye is open iff the eyelids are strictly more than 7 pixels apart vertically, in either order |
| ThresholdAttention.IsEyeOpenSymmetric | app/modules/use-face-landmarks.tsx:88 | Swapping the upper and lower keypoints gives the same verdict |
| ThresholdAttention.GapOfSevenIsClosed | app/modules/use-face-landmarks.tsx:90 | A gap of exactly 7 pixels is a closed eye |
| ThresholdAttention.CheckEyesOpen | app/modules/use-face-landmarks.tsx:83-101 | With keypoint 386 absent the answer is false, not an exception; otherwise it is true iff both eyes (386/374 and 159/145) are open |
| ThresholdAttention.EyelidGapScenarios | app/modules/use-face-landmarks.tsx:93-96 | Gaps of 10 pixels on both eyes are open eyes, gaps of 3 pixels closed ones |
| ThresholdAttention.TwoLevelScore | app/modules/use-face-landmarks.tsx:192 | The score is 100 or 50, and 100 exactly for open eyes |
| Detection.ReadFace | app/modules/use-face-landmarks.ts:176-203 | The face branch yields a positive attentiveness the variant can publish; only the weighted variant can throw, exactly on a rotation without angle; the two-level variant gives 100 for open eyes and 50 for closed |
| Detection.DetectFaces | app/modules/use-face-landmarks.ts:163-238 | A tick reschedules iff video and detector exist and otherwise changes nothing; it never touches camera status, permission or last error; after a tick that ran, the attentiveness is one the variant publishes, and nonzero iff somebody is watching |
| Detection.DetectFacesKeepsConsistent | app/modules/use-face-landmarks.tsx:182-217 | Every tick keeps `!isWatching ==> attentiveness == 0`, `isWatching ==> attentiveness != 0 && eyeStatus != Unknown` and `cameraStatus == Error ==> !isWatching` while the camera is not in error |
| Detection.WeightedFaceTick | app/modules/use-face-landmarks.ts:170-204 | Weighted variant, face with a readable rotation: watching, sample time recorded, eye status open or closed by the keypoint check, attentiveness the rounded weighted score within [60,100], status text naming it; the loop goes on |
| Detection.WeightedRotationThrows | app/modules/use-face-landmarks.ts:170-235 | Weighted variant, rotation without angle: the sample time is recorded, then the error updater sets not watching, attentiveness 0, "Detection error occurred" |
| Detection.WeightedUprightScenario | app/modules/use-face-landmarks.ts:176-204 | Weighted variant, straight face: 100 with keypoint 263 present, 80 without it |
| Detection.TwoLevelFaceTick | app/modules/use-face-landmarks.tsx:182-199 | Two-level variant, face found: watching, time recorded, eyes open gives 100 and "open", closed gives 50 and "closed"; the status line shows the score |
| Detection.NoFaceTick | app/modules/use-face-landmarks.tsx:201-207 | No face: not watching, eyes unknown, attentiveness 0, "No face detected", whatever the previous state; the loop goes on |
| Detection.EstimationErrorTick | app/modules/use-face-landmarks.tsx:209-219 | A rejected estimate changes exactly the status text ("Detection error occurred"), isWatching (false) and attentiveness (0); eye status, detection time and camera status stay; the loop goes on |
| Detection.ErrorLeavesEyeStatusStale | app/modules/use-face-landmarks.tsx:209-216 | After open eyes, a rejected estimate leaves nobody watching with the eyes still reported open |
| Detection.RunKeepsInvariants | app/modules/use-face-landmarks.tsx:175-220 | Any run of ticks keeps consistency (nobody watching means a zero score; somebody watching means a nonzero score and a known eye status; a camera error means nobody watching) and the camera status, and ends on an attentiveness the variant publishes |
| Detection.RunStillScheduled | app/modules/use-face-landmarks.tsx:176-219 | After at least one frame, a frame request is pending iff the detector exists and every frame found the video element |
| Detection.RunWithoutDetector | app/modules/use-face-landmarks.tsx:176 | Without a detector the loop returns at once, changes nothing and requests no frame |
| Detection.ScoreTextInjective | app/modules/use-face-landmarks.tsx:198 | Different scores give different status texts |
| Setup.SetupFailureResets | app/modules/use-face-landmarks.tsx:163-172 | Setup failure: camera error, last error the thrown message or "Unknown error", not watching, attentiveness 0, the other fields as before |
| Setup.SetupFaceDetection | app/modules/use-face-landmarks.tsx:108-173 | A refused gate stops the setup before any stream is requested; the stream opens iff the gate passes and getUserMedia resolves; the detector exists iff the model loads too; the camera ends ready iff the detector exists and in error otherwise; consistency holds with nobody watching; a rejected stream or model load puts its message (or "Unknown error") in `lastError`; past the gate the permission answer stays recorded, and a full success leaves `lastError` alone |
| Setup.DeniedPermissionScenario | app/modules/use-face-landmarks.tsx:55-68 | A "denied" answer ends setup in a camera error with the permission recorded as denied, the reset message, and no stream |
| Setup.Session | app/modules/use-face-landmarks.tsx:103-222 | From the initial state, setup followed by any frames ends consistent: somebody is watching iff the attentiveness is nonzero, and then the eye status is known; with an attentiveness the variant publishes, the camera ready iff the detector exists; without a detector the frames change nothing |
| Hook.FaceLandmarksHook.constructor | app/modules/use-face-landmarks.tsx:19-28 | The hook starts in the initial state with no detector, no stream and no pending frame |
| Hook.FaceLandmarksHook.CheckAndRequestPermission | app/modules/use-face-landmarks.tsx:31-80 | The step-by-step updaters return the gate's boolean and leave the gate's state, keeping the object invariant |
| Hook.FaceLandmarksHook.SetupFaceDetection | app/modules/use-face-landmarks.tsx:108-173 | The step-by-step setup leaves the state, stream and detector that `Setup.SetupFaceDetection` computes, keeping the object invariant |
| Hook.FaceLandmarksHook.DetectFaces | app/modules/use-face-landmarks.tsx:175-220 | One tick leaves the state and reschedule flag of `Detection.DetectFaces`; a frame is pending afterwards iff it rescheduled |
| Hook.FaceLandmarksHook.DetectionLoop | app/modules/use-face-landmarks.ts:163-239 | The loop over frames leaves the state and the pending frame request of `Detection.Run` (the old request when no frame came) and keeps the object invariant |
| Hook.FaceLandmarksHook.Mount | app/modules/use-face-landmarks.tsx:103-222 | The effect body: setup, then the loop only if the detector was created; the final state and pending frame request are those of a session, and without a detector no frame is requested |
| Hook.FaceLandmarksHook.Cleanup | app/modules/use-face-landmarks.tsx:224-231 | After cleanup no stream is live and no frame is pending, the state untouched; a second call changes nothing |
| QueuedAttention.AfterCallsIsMin | app/modules/use-queued-attention.tsx:7-8 | From 0 with a limit of at least 0, n calls leave min(n, limit) |
| QueuedAttention.NonPositiveLimitStaysZero | app/modules/use-queued-attention.tsx:7 | With a limit of 0 or less the value stays 0 forever |
| QueuedAttention.AfterCallsBounded | app/modules/use-queued-attention.tsx:7-8 | From 0 the value is never negative and never exceeds max(limit, 0) |
| QueuedAttention.SaturatedStaysPut | app/modules/use-queued-attention.tsx:7-9 | Once the limit is reached, more calls change nothing |
| QueuedAttention.QueuedAttentionCounter.constructor | app/modules/use-queued-attention.tsx:3-4 | The counter starts at 0, with limit 30 unless one is given |
| QueuedAttention.QueuedAttentionCounter.SetQueuedAttentionRestrictedByLimit | app/modules/use-queued-attention.tsx:6-10 | Below the limit the value rises by exactly 1; at or above it nothing changes; the value stays within [0, max(limit, 0)] |

## Left out

- The awaits are not modelled as suspension points. Nothing in the model interleaves with a
  setup in progress, and the effect's cleanup cannot race with it.
- Hook.FaceLandmarksHook.Cleanup: "no frame is pending" holds only when cleanup runs between
  ticks. In the code, a cleanup that runs while a tick waits on `estimateFaces` cancels a frame
  id that has already fired. That tick then resumes, writes the state and requests another frame. Likewise "no stream is live"
  holds only once the setup has finished: a cleanup that runs while the setup waits on
  `getUserMedia` finds no stream, the stream is assigned when the call resolves, and nothing
  stops it afterwards, so the camera stays on.
- The wait for `onloadedmetadata`, `play()` and the one-second settle delay are left out. A
  metadata event that never fires would hang the setup. The model does not represent that hang.
- The presence of `videoRef.current` during setup only decides whether the stream is attached
  to the video element. It has no effect on the state, so it is not a parameter of the setup.
- `tf.setBackend`, `tf.ready` and `createDetector` are one failure point (`ModelFailed`). All
  three reach the same `catch` with the same state.
- `requestAnimationFrame` and `cancelAnimationFrame` become the flag `framePending`. Frame ids
  and display timing are not modelled.
- Stopping a stream becomes the flag `streamLive`. Individual tracks are not modelled.
- Numbers are Dafny `real` and `int`, not IEEE doubles. NaN, infinities and `-0` are left out,
  and so is the coercion of NaN to 0 by `|| 0`.
- `console.log` and `console.error` are left out. `new Date()` is the `now` parameter.
- React's batching and stale closures are left out. Each `setState` updater runs in order on
  the latest state. `useQueuedAttention` is modelled as sequential calls, each seeing the value
  the previous one left.
- Faces after the first are ignored, as the hook ignores them (it asks the detector for one).
- The debug panel JSX, the player, the routes, the custom element and the display-coverage
  hook are not part of this model. They are markup, DOM measurement and registration with no
  attention logic.
- WeightedAttention.CheckEyesOpen: returns a boolean. The source returns the right-eye keypoint
  object or `undefined`, which is only ever used as a condition.
- Decimal.Show: covers non-negative integers only. Only those reach the status text.
- QueuedAttention: the limit is restricted to integers. With a fractional limit such as 2.5
  the source's counter stops at the next integer up (3), above the limit, and the bound
  `0 <= queued <= max(limit, 0)` proved here does not cover that case.

=== FILE: decimal.dfy ===
/** The decimal text JavaScript gives a non-negative integer in a template
    literal, used in the status line `Attentiveness: ${score}%`. */
module Decimal {

  function DigitChar(d: nat): (c: char)
    requires d < 10
    ensures '0' <= c <= '9'
  {
    (48 + d) as char
  }

  function DigitValue(c: char): int
  {
    c as int - 48
  }

  predicate IsDigits(s: string)
  {
    forall i :: 0 <= i < |s| ==> '0' <= s[i] <= '9'
  }

  /** The shortest decimal numeral of `n`: digits only, and no leading zero. */
  function Show(n: nat): (r: string)
    ensures |r| >= 1 && IsDigits(r)
    ensures |r| > 1 ==> r[0] != '0'
    ensures n < 10 <==> |r| == 1
  {
    if n < 10 then [DigitChar(n)] else Show(n / 10) + [DigitChar(n % 10)]
  }

  /** Reads a string of digits back as a number. */
  function Value(s: string): int
  {
    if s == [] then 0 else Value(s[..|s| - 1]) * 10 + DigitValue(s[|s| - 1])
  }

  /** The numeral reads back as the number it shows. */
  lemma {:induction false} ValueOfShow(n: nat)
    ensures Value(Show(n)) == n
  {
    if n >= 10 {
      ValueOfShow(n / 10);
      var s := Show(n / 10) + [DigitChar(n % 10)];
      assert s[..|s| - 1] == Show(n / 10);
    }
  }

  /** Distinct numbers get distinct numerals. */
  lemma ShowInjective(m: nat, n: nat)
    requires Show(m) == Show(n)
    ensures m == n
  {
    ValueOfShow(m);
    ValueOfShow(n);
  }
}

=== FILE: detection.dfy ===
/** One run of `detectFaces`, the self-rescheduling sampling loop of both hook
    variants: the updaters it applies to the state, the tick they compose
    into, and runs of consecutive ticks. */
module Detection {
  import opened FaceState
  import Decimal
  import WeightedAttention
  import ThresholdAttention

  /** Which hook: use-face-landmarks.ts scores a face with the weighted
      formula, use-face-landmarks.tsx with the two-level eyelid test. */
  datatype Variant = Weighted | TwoLevel

  /** The attentiveness values a tick of the variant can publish. */
  predicate Publishable(v: Variant, a: int)
  {
    match v
    case Weighted => a == 0 || 60 <= a <= 100
    case TwoLevel => a == 0 || a == 50 || a == 100
  }

  /** What the face branch works out for the first face: the eye flag and the
      attentiveness. */
  datatype FaceReading = FaceReading(eyesOpen: bool, score: int)

  /** The face branch's computation, or None when it throws (only the weighted
      variant can, on a `rotation` without `angle`). */
  function ReadFace(v: Variant, face: Face): (r: Option<FaceReading>)
    ensures r.Some? ==> Publishable(v, r.value.score) && r.value.score > 0
    ensures v == TwoLevel ==> r.Some?
    ensures v == Weighted ==> (r.None? <==> face.rotation.Some? && face.rotation.value.angle.None?)
    ensures r.Some? && v == TwoLevel ==>
      r.value.eyesOpen == ThresholdAttention.CheckEyesOpen(face.keypoints) &&
      r.value.score == (if r.value.eyesOpen then 100 else 50)
  {
    match v
    case Weighted =>
      var eyesOpen := WeightedAttention.CheckEyesOpen(face.keypoints);
      (match WeightedAttention.ReadRotation(face.rotation)
       case None => None
       case Some((yaw, roll)) =>
         Some(FaceReading(eyesOpen, WeightedAttention.Attentiveness(eyesOpen, yaw, roll))))
    case TwoLevel =>
      var eyesOpen := ThresholdAttention.CheckEyesOpen(face.keypoints);
      Some(FaceReading(eyesOpen, ThresholdAttention.TwoLevelScore(eyesOpen)))
  }

  const NoFaceText := "No face detected"
  const DetectionErrorText := "Detection error occurred"

  function ScoreText(score: nat): string
  {
    "Attentiveness: " + Decimal.Show(score) + "%"
  }

  /** First updater after a successful estimate: who is watching, and when. */
  function MarkSample(prev: FaceLandmarksState, hasFace: bool, now: int): FaceLandmarksState
  {
    prev.(isWatching := hasFace, lastDetectionTime := Some(now))
  }

  /** Second updater when a face was found. */
  function PublishFace(prev: FaceLandmarksState, reading: FaceReading): FaceLandmarksState
    requires reading.score >= 0
  {
    prev.(eyeStatus := if reading.eyesOpen then Open else Closed,
          attentiveness := reading.score,
          faceDetectionStatus := ScoreText(reading.score))
  }

  /** Second updater when no face was found. */
  function PublishNoFace(prev: FaceLandmarksState): FaceLandmarksState
  {
    prev.(eyeStatus := Unknown, attentiveness := 0, faceDetectionStatus := NoFaceText)
  }

  /** The updater of the `catch` block. It leaves `eyeStatus` as it was. */
  function PublishDetectionError(prev: FaceLandmarksState): FaceLandmarksState
  {
    prev.(faceDetectionStatus := DetectionErrorText, isWatching := false, attentiveness := 0)
  }

  /** The state a tick leaves and whether it requested the next animation
      frame. */
  datatype TickResult = TickResult(state: FaceLandmarksState, reschedule: bool)

  /** One call of `detectFaces`. `videoPresent` is whether `videoRef.current`
      is set, `detectorReady` whether `detector` has been assigned; `now` is
      the clock reading `new Date()` takes. The updaters that run after the
      same `await` form one unit. */
  function DetectFaces(v: Variant, videoPresent: bool, detectorReady: bool, estimate: Estimate,
                       now: int, prev: FaceLandmarksState): (r: TickResult)
    // the loop goes on after every outcome, and stops only for a missing video or detector
    ensures r.reschedule <==> videoPresent && detectorReady
    ensures !r.reschedule ==> r.state == prev
    // a tick never touches the camera, the permission or the last error
    ensures r.state.cameraStatus == prev.cameraStatus
    ensures r.state.permissionStatus == prev.permissionStatus
    ensures r.state.lastError == prev.lastError
    // what a tick publishes is one of the variant's values, and zero when nobody watches
    ensures r.reschedule ==> Publishable(v, r.state.attentiveness)
    ensures r.reschedule ==> (r.state.isWatching <==> r.state.attentiveness != 0)
  {
    if !videoPresent || !detectorReady then TickResult(prev, false)
    else
      match estimate
      case EstimationFailed => TickResult(PublishDetectionError(prev), true)
      case Faces(faces) =>
        var marked := MarkSample(prev, |faces| > 0, now);
        if |faces| == 0 then TickResult(PublishNoFace(marked), true)
        else
          match ReadFace(v, faces[0])
          case None => TickResult(PublishDetectionError(marked), true)
          case Some(reading) => TickResult(PublishFace(marked, reading), true)
  }

  /** A tick keeps the hook's consistency as long as the camera is not in
      error, which holds whenever the detector exists. */
  lemma DetectFacesKeepsConsistent(v: Variant, videoPresent: bool, detectorReady: bool,
                                   estimate: Estimate, now: int, prev: FaceLandmarksState)
    requires Consistent(prev) && prev.cameraStatus != Error
    ensures Consistent(DetectFaces(v, videoPresent, detectorReady, estimate, now, prev).state)
  {
  }

  /** Weighted variant, face found and its rotation readable: somebody is
      watching, the eye status follows the keypoint check, and the published
      attentiveness is the rounded weighted score, at least 60. */
  lemma WeightedFaceTick(faces: seq<Face>, now: int, prev: FaceLandmarksState)
    requires |faces| > 0
    requires !(faces[0].rotation.Some? && faces[0].rotation.value.angle.None?)
    ensures var r := DetectFaces(Weighted, true, true, Faces(faces), now, prev);
      var eyesOpen := WeightedAttention.CheckEyesOpen(faces[0].keypoints);
      var angles := WeightedAttention.ReadRotation(faces[0].rotation);
      && r.reschedule
      && r.state.isWatching
      && r.state.lastDetectionTime == Some(now)
      && r.state.eyeStatus == (if eyesOpen then Open else Closed)
      && angles.Some?
      && r.state.attentiveness == WeightedAttention.Attentiveness(eyesOpen, angles.value.0, angles.value.1)
      && 60 <= r.state.attentiveness <= 100
      && r.state.faceDetectionStatus == ScoreText(r.state.attentiveness)
  {
  }

  /** Weighted variant, a face whose `rotation` has no `angle`: the read
      throws after the sample was marked, so the error updater runs on top
      of it. */
  lemma WeightedRotationThrows(faces: seq<Face>, now: int, prev: FaceLandmarksState)
    requires |faces| > 0
    requires faces[0].rotation.Some? && faces[0].rotation.value.angle.None?
    ensures DetectFaces(Weighted, true, true, Faces(faces), now, prev) ==
      TickResult(prev.(isWatching := false, lastDetectionTime := Some(now),
                       faceDetectionStatus := DetectionErrorText, attentiveness := 0), true)
  {
  }

  /** A straight face (no rotation, or no angle on either axis): with
      keypoint 263 present the eyes count as open and the tick publishes 100;
      with a shorter keypoint array they count as closed and it publishes 80. */
  lemma WeightedUprightScenario(face: Face, now: int, prev: FaceLandmarksState)
    requires face.rotation.None? || face.rotation == Some(Rotation(Some(Angle(None, None))))
    ensures |face.keypoints| > 263 ==>
      DetectFaces(Weighted, true, true, Faces([face]), now, prev).state.attentiveness == 100
    ensures |face.keypoints| <= 263 ==>
      DetectFaces(Weighted, true, true, Faces([face]), now, prev).state.attentiveness == 80
  {
    WeightedAttention.UprightFace();
  }

  /** Two-level variant, face found: open eyes publish 100, closed eyes 50. */
  lemma TwoLevelFaceTick(faces: seq<Face>, now: int, prev: FaceLandmarksState)
    requires |faces| > 0
    ensures var r := DetectFaces(TwoLevel, true, true, Faces(faces), now, prev);
      var eyesOpen := ThresholdAttention.CheckEyesOpen(faces[0].keypoints);
      && r.reschedule
      && r.state.isWatching
      && r.state.lastDetectionTime == Some(now)
      && r.state.eyeStatus == (if eyesOpen then Open else Closed)
      && r.state.attentiveness == (if eyesOpen then 100 else 50)
      && r.state.faceDetectionStatus == ScoreText(r.state.attentiveness)
  {
  }

  /** No face in the frame: whatever the previous tick published, nobody is
      watching, the eyes are unknown and the attentiveness is zero. */
  lemma NoFaceTick(v: Variant, now: int, prev: FaceLandmarksState)
    ensures var r := DetectFaces(v, true, true, Faces([]), now, prev);
      && r.reschedule
      && !r.state.isWatching
      && r.state.eyeStatus == Unknown
      && r.state.attentiveness == 0
      && r.state.faceDetectionStatus == NoFaceText
      && r.state.lastDetectionTime == Some(now)
  {
  }

  /** A rejected estimate changes the status line, `isWatching` and the
      attentiveness, and nothing else; the loop goes on. */
  lemma EstimationErrorTick(v: Variant, now: int, prev: FaceLandmarksState)
    ensures var r := DetectFaces(v, true, true, EstimationFailed, now, prev);
      && r.reschedule
      && r.state == prev.(faceDetectionStatus := DetectionErrorText, isWatching := false, attentiveness := 0)
  {
  }

  /** The error path leaves a stale eye status: after open eyes, a rejected
      estimate gives a state where nobody is watching but the eyes are still
      reported open. */
  lemma ErrorLeavesEyeStatusStale(v: Variant, faces: seq<Face>, now: int, later: int, prev: FaceLandmarksState)
    requires |faces| > 0 && v == TwoLevel
    requires ThresholdAttention.CheckEyesOpen(faces[0].keypoints)
    ensures var first := DetectFaces(v, true, true, Faces(faces), now, prev);
      var second := DetectFaces(v, true, true, EstimationFailed, later, first.state);
      !second.state.isWatching && second.state.eyeStatus == Open
  {
  }

  /** One sampled frame: whether the video element is there, what the
      estimator returns, and the clock. */
  datatype Frame = Frame(videoPresent: bool, estimate: Estimate, now: int)

  /** Consecutive ticks over `frames`, stopping after the first tick that
      does not reschedule itself. The result is the state left and whether a
      frame request is still pending; `pending` is that flag before the run,
      which an empty run leaves as it was. */
  function Run(v: Variant, detectorReady: bool, frames: seq<Frame>, s: FaceLandmarksState,
               pending: bool): TickResult
    decreases |frames|
  {
    if frames == [] then TickResult(s, pending)
    else
      var t := DetectFaces(v, frames[0].videoPresent, detectorReady, frames[0].estimate, frames[0].now, s);
      if t.reschedule then Run(v, detectorReady, frames[1..], t.state, true) else t
  }

  /** Any run of ticks keeps the consistency, keeps the camera status, and
      leaves a value the variant can publish. */
  lemma {:induction false} RunKeepsInvariants(v: Variant, detectorReady: bool, frames: seq<Frame>,
                                              s: FaceLandmarksState, pending: bool)
    requires Consistent(s) && s.cameraStatus != Error && Publishable(v, s.attentiveness)
    ensures var e := Run(v, detectorReady, frames, s, pending).state;
      Consistent(e) && e.cameraStatus == s.cameraStatus && Publishable(v, e.attentiveness)
    decreases |frames|
  {
    if frames != [] {
      var f := frames[0];
      DetectFacesKeepsConsistent(v, f.videoPresent, detectorReady, f.estimate, f.now, s);
      var t := DetectFaces(v, f.videoPresent, detectorReady, f.estimate, f.now, s);
      if t.reschedule {
        RunKeepsInvariants(v, detectorReady, frames[1..], t.state, true);
      }
    }
  }

  /** After at least one frame, a request is still pending exactly when the
      detector exists and every frame found the video element: the first
      frame without it ends the loop. */
  lemma {:induction false} RunStillScheduled(v: Variant, detectorReady: bool, frames: seq<Frame>,
                                             s: FaceLandmarksState, pending: bool)
    requires frames != []
    ensures Run(v, detectorReady, frames, s, pending).reschedule <==>
      detectorReady && forall i :: 0 <= i < |frames| ==> frames[i].videoPresent
    decreases |frames|
  {
    var f := frames[0];
    var t := DetectFaces(v, f.videoPresent, detectorReady, f.estimate, f.now, s);
    if t.reschedule && |frames| > 1 {
      RunStillScheduled(v, detectorReady, frames[1..], t.state, true);
      assert forall i :: 1 <= i < |frames| ==> frames[i] == frames[1..][i - 1];
    }
  }

  /** Without a detector no tick does anything, and after a first frame no
      request is pending. */
  lemma RunWithoutDetector(v: Variant, frames: seq<Frame>, s: FaceLandmarksState, pending: bool)
    ensures Run(v, false, frames, s, pending) == TickResult(s, pending && frames == [])
  {
  }

  /** A status text names its score: different scores give different texts. */
  lemma ScoreTextInjective(m: nat, n: nat)
    requires ScoreText(m) == ScoreText(n)
    ensures m == n
  {
    var prefix := "Attentiveness: ";
    assert ScoreText(m) == prefix + Decimal.Show(m) + "%";
    assert ScoreText(m)[|prefix|..|ScoreText(m)| - 1] == Decimal.Show(m);
    assert ScoreText(n)[|prefix|..|ScoreText(n)| - 1] == Decimal.Show(n);
    Decimal.ShowInjective(m, n);
  }
}

=== FILE: hook.dfy ===
/** The `useFaceLandmarks` hook as a stateful object: the React state cell
    and the effect's `let` locals (`detector`, `stream`, `animationFrameId`),
    with each asynchronous function as a method that applies its updaters one
    after another. Each method is proved to leave exactly the state the pure
    model of the same function computes. */
module Hook {
  import opened FaceState
  import Permission
  import opened Detection
  import Setup

  class FaceLandmarksHook {
    /** Which of the two hook files this object runs. */
    const variant: Variant
    /** The value held by `useState`. */
    var state: FaceLandmarksState
    /** The effect's `detector` has been assigned. */
    var detector: bool
    /** The effect's `stream` holds a stream whose tracks are still running. */
    var streamLive: bool
    /** `animationFrameId` names a frame request that has not fired yet. */
    var framePending: bool

    ghost predicate Valid()
      reads this
    {
      && Consistent(state)
      && Publishable(variant, state.attentiveness)
      && (detector ==> state.cameraStatus == Ready)
      && (framePending ==> detector)
    }

    /** Mounting the hook: the initial state, no detector, no stream, no
        pending frame. */
    constructor(variant: Variant)
      ensures Valid()
      ensures this.variant == variant && state == Initial
      ensures !detector && !streamLive && !framePending
    {
      this.variant := variant;
      state := Initial;
      detector := false;
      streamLive := false;
      framePending := false;
    }

    method CheckAndRequestPermission(browser: Permission.Browser) returns (granted: bool)
      requires Valid() && !state.isWatching && !detector
      modifies this`state
      ensures Valid() && !state.isWatching
      ensures Permission.GateResult(granted, state) ==
        Permission.CheckAndRequestPermission(browser, old(state))
    {
      Permission.GateKeepsConsistent(browser, state);
      if !Permission.IsSecureContext(browser.protocol, browser.hostname) {
        state := Permission.ReportError(state, Permission.HttpsRequired);
        return false;
      }
      if !browser.hasPermissions || !browser.hasMediaDevices {
        state := Permission.ReportError(state, Permission.NotSupported);
        return false;
      }
      match browser.query {
        case Rejected =>
          state := Permission.ReportError(state, Permission.PermissionCheckFailed);
          return false;
        case Answered(p) =>
          state := state.(permissionStatus := p);
          if p == Denied {
            state := Permission.ReportError(state, Permission.PermissionDenied);
            return false;
          }
          return true;
      }
    }

    method SetupFaceDetection(browser: Permission.Browser, outcome: Setup.SetupOutcome)
      requires Valid() && !state.isWatching && !detector && !streamLive
      modifies this`state, this`detector, this`streamLive
      ensures Valid()
      ensures Setup.SetupResult(state, streamLive, detector) ==
        Setup.SetupFaceDetection(browser, outcome, old(state))
    {
      var granted := CheckAndRequestPermission(browser);
      if !granted {
        return;
      }
      state := state.(cameraStatus := Initializing, faceDetectionStatus := Setup.SettingUpText);
      if outcome.StreamFailed? {
        state := Setup.SetupFailure(state, outcome.err);
        return;
      }
      streamLive := true;
      state := state.(faceDetectionStatus := Setup.LoadingModelText);
      if outcome.ModelFailed? {
        state := Setup.SetupFailure(state, outcome.err);
        return;
      }
      detector := true;
      state := state.(cameraStatus := Ready, faceDetectionStatus := Setup.StartingText);
    }

    /** One call of `detectFaces`, as the callback of the frame request that
        was pending (or as the first call, from the setup). */
    method DetectFaces(videoPresent: bool, estimate: Estimate, now: int) returns (rescheduled: bool)
      requires Valid()
      modifies this`state, this`framePending
      ensures Valid()
      ensures TickResult(state, rescheduled) ==
        Detection.DetectFaces(variant, videoPresent, detector, estimate, now, old(state))
      ensures framePending == rescheduled
    {
      framePending := false;
      if !videoPresent || !detector {
        return false;
      }
      DetectFacesKeepsConsistent(variant, videoPresent, detector, estimate, now, state);
      match estimate {
        case EstimationFailed =>
          state := PublishDetectionError(state);
        case Faces(faces) =>
          state := MarkSample(state, |faces| > 0, now);
          if |faces| > 0 {
            match ReadFace(variant, faces[0]) {
              case None =>
                state := PublishDetectionError(state);
              case Some(reading) =>
                state := PublishFace(state, reading);
            }
          } else {
            state := PublishNoFace(state);
          }
      }
      framePending := true;
      rescheduled := true;
    }

    /** The self-rescheduling loop: each frame runs one `detectFaces`, and the
        loop ends when a call does not request another frame or the frames
        run out. Afterwards a frame request is pending exactly as the run
        says: the last call's request, or the earlier one if no frame came. */
    method DetectionLoop(frames: seq<Frame>)
      requires Valid()
      modifies this`state, this`framePending
      ensures Valid()
      ensures TickResult(state, framePending) ==
        Run(variant, detector, frames, old(state), old(framePending))
    {
      var ticks := 0;
      var running := true;
      while ticks < |frames| && running
        invariant ticks <= |frames|
        invariant Valid()
        invariant running ==> Run(variant, detector, frames, old(state), old(framePending)) ==
                              Run(variant, detector, frames[ticks..], state, framePending)
        invariant !running ==>
          TickResult(state, framePending) == Run(variant, detector, frames, old(state), old(framePending))
        decreases |frames| - ticks, running
      {
        var f := frames[ticks];
        assert frames[ticks..][1..] == frames[ticks + 1..];
        running := DetectFaces(f.videoPresent, f.estimate, f.now);
        ticks := ticks + 1;
      }
    }

    /** The effect body: set up, then, if the detector was created, start
        the loop. Without a detector no frame is ever requested. */
    method Mount(browser: Permission.Browser, outcome: Setup.SetupOutcome, frames: seq<Frame>)
      requires Valid() && state == Initial && !detector && !streamLive
      modifies this`state, this`detector, this`streamLive, this`framePending
      ensures Valid()
      ensures var r := Setup.SetupFaceDetection(browser, outcome, Initial);
        && detector == r.detectorReady && streamLive == r.streamOpened
        && TickResult(state, framePending) == Run(variant, r.detectorReady, frames, r.state, false)
      ensures !detector ==> !framePending
    {
      SetupFaceDetection(browser, outcome);
      if detector {
        DetectionLoop(frames);
      } else {
        RunWithoutDetector(variant, frames, state, framePending);
      }
    }

    /** The effect's cleanup: stop the stream's tracks if there is a stream
        and cancel the frame request if there is one. The state is left
        alone, and a second call finds nothing left to release. */
    method Cleanup()
      requires Valid()
      modifies this`streamLive, this`framePending
      ensures Valid()
      ensures !streamLive && !framePending
    {
      if streamLive {
        streamLive := false;
      }
      if framePending {
        framePending := false;
      }
    }
  }
}

=== FILE: permission.dfy ===
/** `checkAndRequestPermission`, the gate both hook variants pass before they
    touch the camera: secure context, then the browser APIs, then the
    permission query, with a catch-all for a query that rejects. */
module Permission {
  import opened FaceState

  /** JavaScript's `String.prototype.includes`: does `t` occur in `s`? */
  function Includes(s: string, t: string): bool
    decreases |s|
  {
    if |s| < |t| then false
    else s[..|t|] == t || Includes(s[1..], t)
  }

  /** `t` occurs in `s` starting at index `i`. */
  ghost predicate OccursAt(s: string, t: string, i: int)
  {
    0 <= i && i + |t| <= |s| && s[i..i + |t|] == t
  }

  /** `Includes` is substring containment: true iff some position of `s`
      starts a copy of `t`. */
  lemma {:induction false} IncludesIsSubstring(s: string, t: string)
    ensures Includes(s, t) <==> exists i :: OccursAt(s, t, i)
    decreases |s|
  {
    if |s| < |t| {
      forall i ensures !OccursAt(s, t, i) { }
    } else if s[..|t|] == t {
      assert OccursAt(s, t, 0);
    } else {
      IncludesIsSubstring(s[1..], t);
      forall j | OccursAt(s[1..], t, j) ensures OccursAt(s, t, j + 1) {
        assert s[1..][j..j + |t|] == s[j + 1..j + 1 + |t|];
      }
      forall i | OccursAt(s, t, i) ensures i > 0 && OccursAt(s[1..], t, i - 1) {
        assert s[..|t|] == s[0..|t|];
        assert s[1..][i - 1..i - 1 + |t|] == s[i..i + |t|];
      }
    }
  }

  /** The test the source makes on `window.location`: the protocol contains
      "https" or the host name contains "localhost". */
  predicate IsSecureContext(protocol: string, hostname: string)
  {
    Includes(protocol, "https") || Includes(hostname, "localhost")
  }

  /** What `navigator.permissions.query({name: "camera"})` does. */
  datatype QueryOutcome = Answered(answer: PermissionStatus) | Rejected

  /** The browser as the gate sees it: the page location, whether
      `navigator.permissions` and `navigator.mediaDevices` exist, and how the
      permission query turns out. */
  datatype Browser = Browser(
    protocol: string,
    hostname: string,
    hasPermissions: bool,
    hasMediaDevices: bool,
    query: QueryOutcome)

  const HttpsRequired := "Camera access requires HTTPS. Please use a secure connection."
  const NotSupported := "Your browser does not support camera access."
  const PermissionDenied := "Camera permission was denied. Please reset permissions and reload."
  const PermissionCheckFailed := "Failed to check camera permissions"

  /** The updater the gate applies on each failure. */
  function ReportError(prev: FaceLandmarksState, message: string): FaceLandmarksState
  {
    prev.(lastError := message, cameraStatus := Error)
  }

  /** The boolean the gate returns and the state its updaters leave. */
  datatype GateResult = GateResult(granted: bool, state: FaceLandmarksState)

  predicate PermissionUsable(b: Browser)
  {
    b.query.Answered? && b.query.answer != Denied
  }

  function CheckAndRequestPermission(b: Browser, prev: FaceLandmarksState): (r: GateResult)
    // access is granted exactly when every check passes
    ensures r.granted <==>
      IsSecureContext(b.protocol, b.hostname) && b.hasPermissions && b.hasMediaDevices && PermissionUsable(b)
    // a refusal is always reported as a camera error
    ensures !r.granted ==> r.state.cameraStatus == Error
    // a grant changes nothing but the recorded permission
    ensures r.granted ==> r.state == prev.(permissionStatus := b.query.answer)
    // the HTTPS message is reported exactly for an insecure context
    ensures (!r.granted && r.state.lastError == HttpsRequired) <==> !IsSecureContext(b.protocol, b.hostname)
    // the answer of the query is always recorded, and nothing else touches permissionStatus
    ensures r.state.permissionStatus ==
      if IsSecureContext(b.protocol, b.hostname) && b.hasPermissions && b.hasMediaDevices && b.query.Answered?
      then b.query.answer else prev.permissionStatus
    // only lastError, cameraStatus and permissionStatus can change
    ensures r.state.(lastError := prev.lastError, cameraStatus := prev.cameraStatus,
                     permissionStatus := prev.permissionStatus) == prev
  {
    if !IsSecureContext(b.protocol, b.hostname) then
      GateResult(false, ReportError(prev, HttpsRequired))
    else if !b.hasPermissions || !b.hasMediaDevices then
      GateResult(false, ReportError(prev, NotSupported))
    else
      match b.query
      case Rejected => GateResult(false, ReportError(prev, PermissionCheckFailed))
      case Answered(p) =>
        var s := prev.(permissionStatus := p);
        if p == Denied then GateResult(false, ReportError(s, PermissionDenied))
        else GateResult(true, s)
  }

  /** The secure-context test comes first: in an insecure context neither the
      browser APIs nor the permission query have any say in the outcome,
      which is a refusal with the HTTPS message and the permission untouched. */
  lemma InsecureContextCheckedFirst(b: Browser, other: Browser, prev: FaceLandmarksState)
    requires !IsSecureContext(b.protocol, b.hostname)
    requires other.protocol == b.protocol && other.hostname == b.hostname
    ensures CheckAndRequestPermission(b, prev) == CheckAndRequestPermission(other, prev)
    ensures CheckAndRequestPermission(b, prev) ==
      GateResult(false, prev.(lastError := HttpsRequired, cameraStatus := Error))
  {
  }

  /** Missing APIs are checked second: once the context is secure and an API
      is missing, the query has no say and the permission stays as it was. */
  lemma MissingApisCheckedBeforeQuery(b: Browser, other: Browser, prev: FaceLandmarksState)
    requires IsSecureContext(b.protocol, b.hostname)
    requires !b.hasPermissions || !b.hasMediaDevices
    requires other == b.(query := other.query)
    ensures CheckAndRequestPermission(b, prev) == CheckAndRequestPermission(other, prev)
    ensures CheckAndRequestPermission(b, prev) ==
      GateResult(false, prev.(lastError := NotSupported, cameraStatus := Error))
  {
  }

  /** A query that answers "denied" is recorded and refused with the reset
      message; a query that rejects is refused with the catch-all message and
      records nothing. */
  lemma QueryOutcomes(b: Browser, prev: FaceLandmarksState)
    requires IsSecureContext(b.protocol, b.hostname) && b.hasPermissions && b.hasMediaDevices
    ensures b.query == Answered(Denied) ==>
      CheckAndRequestPermission(b, prev) ==
      GateResult(false, prev.(permissionStatus := Denied, lastError := PermissionDenied, cameraStatus := Error))
    ensures b.query == Rejected ==>
      CheckAndRequestPermission(b, prev) ==
      GateResult(false, prev.(lastError := PermissionCheckFailed, cameraStatus := Error))
  {
  }

  /** The gate does not touch the watching fields, so it keeps `Consistent`
      whenever nobody is watching yet (it runs first thing in a session). */
  lemma GateKeepsConsistent(b: Browser, prev: FaceLandmarksState)
    requires Consistent(prev) && !prev.isWatching
    ensures Consistent(CheckAndRequestPermission(b, prev).state)
    ensures !CheckAndRequestPermission(b, prev).state.isWatching
  {
  }

  /** An `http:` page on a non-local host is refused
      before the permission is queried. */
  lemma InsecurePageScenario(b: Browser)
    requires b.protocol == "http:" && b.hostname == "example.com"
    ensures CheckAndRequestPermission(b, Initial) ==
      GateResult(false, Initial.(lastError := HttpsRequired, cameraStatus := Error))
  {
    assert b.protocol[4] != "https"[4];
    assert !Includes(b.protocol[1..], "https");
    assert !Includes(b.protocol, "https");
    var h := b.hostname;
    assert h[2..][..9] != "localhost" by { assert h[2..][0] != 'l'; }
    assert h[1..][..9] != "localhost" by { assert h[1..][0] != 'l'; }
    assert h[..9] != "localhost" by { assert h[0] != 'l'; }
    assert !Includes(h[3..], "localhost");
    assert !Includes(h[2..], "localhost");
    assert !Includes(h[1..], "localhost");
    assert !Includes(h, "localhost");
  }
}

=== FILE: queued_attention.dfy ===
/** `useQueuedAttention`: a counter in one state cell that a guarded setter
    raises by one per call until it reaches the limit. Calls are taken one
    after another, each seeing the value the previous one left. */
module QueuedAttention {

  /** The limit when the caller gives none. */
  const DefaultLimit: int := 30

  /** One call of `setQueuedAttentionRestrictedByLimit` on the value `v`. */
  function Step(v: int, limit: int): int
  {
    if v < limit then v + 1 else v
  }

  /** The value after `n` calls, starting from 0. */
  function AfterCalls(n: nat, limit: int): int
  {
    if n == 0 then 0 else Step(AfterCalls(n - 1, limit), limit)
  }

  /** With a non-negative limit, `n` calls leave `min(n, limit)`. */
  lemma {:induction false} AfterCallsIsMin(n: nat, limit: int)
    requires limit >= 0
    ensures AfterCalls(n, limit) == if n < limit then n else limit
  {
    if n > 0 {
      AfterCallsIsMin(n - 1, limit);
    }
  }

  /** With a limit of zero or less the counter never moves. */
  lemma {:induction false} NonPositiveLimitStaysZero(n: nat, limit: int)
    requires limit <= 0
    ensures AfterCalls(n, limit) == 0
  {
    if n > 0 {
      NonPositiveLimitStaysZero(n - 1, limit);
    }
  }

  /** Starting from 0 the counter never goes negative and never passes
      `max(limit, 0)`. */
  lemma AfterCallsBounded(n: nat, limit: int)
    ensures 0 <= AfterCalls(n, limit) <= (if limit > 0 then limit else 0)
  {
    if limit >= 0 {
      AfterCallsIsMin(n, limit);
    } else {
      NonPositiveLimitStaysZero(n, limit);
    }
  }

  /** Once the limit is reached, further calls change nothing. */
  lemma {:induction false} SaturatedStaysPut(n: nat, m: nat, limit: int)
    requires limit >= 0 && n >= limit && m >= n
    ensures AfterCalls(m, limit) == AfterCalls(n, limit)
  {
    AfterCallsIsMin(n, limit);
    AfterCallsIsMin(m, limit);
  }

  class QueuedAttentionCounter {
    /** `limit` of the hook. */
    const limit: int
    /** `queuedAttention[0]`, the value held by `useState`. */
    var queued: int
    /** How many times the setter has been called. */
    ghost var calls: nat

    ghost predicate Valid()
      reads this
    {
      queued == AfterCalls(calls, limit)
    }

    /** `useQueuedAttention(limit = 30)`: the counter starts at 0. */
    constructor(limit: int := DefaultLimit)
      ensures Valid()
      ensures this.limit == limit && queued == 0 && calls == 0
    {
      this.limit := limit;
      queued := 0;
      calls := 0;
    }

    /** `setQueuedAttentionRestrictedByLimit`: below the limit the value goes
        up by exactly one; at or above it nothing changes. Either way the
        call returns nothing. */
    method SetQueuedAttentionRestrictedByLimit()
      requires Valid()
      modifies this`queued, this`calls
      ensures Valid() && calls == old(calls) + 1
      ensures old(queued) < limit ==> queued == old(queued) + 1
      ensures old(queued) >= limit ==> queued == old(queued)
      ensures 0 <= queued <= (if limit > 0 then limit else 0)
    {
      if queued < limit {
        queued := queued + 1;
      }
      calls := calls + 1;
      AfterCallsBounded(calls, limit);
    }
  }
}

=== FILE: setup.dfy ===
/** `setupFaceDetection`, the start of a session in both hook variants: the
    permission gate, the camera stream, the model, and the failure updater of
    its `catch` block; and a whole session, setup followed by ticks. */
module Setup {
  import opened FaceState
  import opened Permission
  import opened Detection

  /** How the asynchronous steps after the gate turn out: `getUserMedia`
      rejects, or loading the model (`tf.setBackend`, `tf.ready`,
      `createDetector`) rejects, or everything resolves. */
  datatype SetupOutcome = StreamFailed(err: Thrown) | ModelFailed(err: Thrown) | ModelLoaded

  const SettingUpText := "Setting up camera..."
  const LoadingModelText := "Loading face landmarks model..."
  const StartingText := "Starting face detection..."

  /** The updater of the setup's `catch` block. */
  function SetupFailure(prev: FaceLandmarksState, err: Thrown): FaceLandmarksState
  {
    prev.(lastError := ErrorText(err), cameraStatus := Error, isWatching := false, attentiveness := 0)
  }

  /** A failed setup is a camera error carrying the thrown message (or
      "Unknown error" for a thrown non-`Error`), with nobody watching; the
      eye status, the permission, the status line and the last detection
      time stay as they were. */
  lemma SetupFailureResets(prev: FaceLandmarksState, err: Thrown)
    ensures var s := SetupFailure(prev, err);
      && s.cameraStatus == Error
      && s.lastError == (if err.ErrorObject? then err.message else "Unknown error")
      && !s.isWatching && s.attentiveness == 0
      && s.eyeStatus == prev.eyeStatus && s.permissionStatus == prev.permissionStatus
      && s.faceDetectionStatus == prev.faceDetectionStatus
      && s.lastDetectionTime == prev.lastDetectionTime
      && Consistent(s)
  {
  }

  /** The state a setup leaves, whether it holds a camera stream, and
      whether the detector was created (the loop then starts). */
  datatype SetupResult = SetupResult(state: FaceLandmarksState, streamOpened: bool, detectorReady: bool)

  function SetupFaceDetection(b: Browser, outcome: SetupOutcome, prev: FaceLandmarksState): (r: SetupResult)
    // a refused gate ends the setup at once: no stream is ever requested
    ensures !CheckAndRequestPermission(b, prev).granted ==>
      r == SetupResult(CheckAndRequestPermission(b, prev).state, false, false)
    ensures r.streamOpened <==> CheckAndRequestPermission(b, prev).granted && !outcome.StreamFailed?
    ensures r.detectorReady <==> CheckAndRequestPermission(b, prev).granted && outcome == ModelLoaded
    ensures r.detectorReady ==> r.streamOpened
    // a finished setup leaves the camera ready exactly when the detector exists, in error otherwise
    ensures r.state.cameraStatus == (if r.detectorReady then Ready else Error)
    ensures Consistent(prev) && !prev.isWatching ==>
      Consistent(r.state) && !r.state.isWatching && r.state.attentiveness == 0
    // past the gate, a rejected stream or model load reports its message as the last error
    ensures CheckAndRequestPermission(b, prev).granted && !outcome.ModelLoaded? ==>
      r.state.lastError == ErrorText(outcome.err)
    // past the gate, the permission answer stays recorded; a full success leaves the last error alone
    ensures CheckAndRequestPermission(b, prev).granted ==>
      && r.state.permissionStatus == CheckAndRequestPermission(b, prev).state.permissionStatus
      && (outcome == ModelLoaded ==> r.state.lastError == prev.lastError)
  {
    var gate := CheckAndRequestPermission(b, prev);
    if !gate.granted then SetupResult(gate.state, false, false)
    else
      var settingUp := gate.state.(cameraStatus := Initializing, faceDetectionStatus := SettingUpText);
      match outcome
      case StreamFailed(e) => SetupResult(SetupFailure(settingUp, e), false, false)
      case ModelFailed(e) =>
        SetupResult(SetupFailure(settingUp.(faceDetectionStatus := LoadingModelText), e), true, false)
      case ModelLoaded =>
        var loading := settingUp.(faceDetectionStatus := LoadingModelText);
        SetupResult(loading.(cameraStatus := Ready, faceDetectionStatus := StartingText), true, true)
  }

  /** A permission answered "denied" ends the setup in a camera error with
      the permission recorded, and no stream is requested. */
  lemma DeniedPermissionScenario(b: Browser, outcome: SetupOutcome)
    requires IsSecureContext(b.protocol, b.hostname) && b.hasPermissions && b.hasMediaDevices
    requires b.query == Answered(Denied)
    ensures var r := SetupFaceDetection(b, outcome, Initial);
      && !r.streamOpened && !r.detectorReady
      && r.state.cameraStatus == Error
      && r.state.permissionStatus == Denied
      && r.state.lastError == PermissionDenied
  {
  }

  /** A whole session from the initial state: setup, then any sequence of
      frames. The consistency holds at the end: somebody is watching exactly
      when the attentiveness is nonzero, and then the eye status is known.
      The attentiveness is one the variant can publish, the camera is ready
      exactly when the detector was created, and without a detector the
      frames change nothing. */
  lemma Session(v: Variant, b: Browser, outcome: SetupOutcome, frames: seq<Frame>)
    ensures var r := SetupFaceDetection(b, outcome, Initial);
      var e := Run(v, r.detectorReady, frames, r.state, false).state;
      && Consistent(e)
      && (e.isWatching <==> e.attentiveness != 0)
      && (e.isWatching ==> e.eyeStatus != Unknown)
      && Publishable(v, e.attentiveness)
      && e.cameraStatus == (if r.detectorReady then Ready else Error)
      && (!r.detectorReady ==> e == r.state)
  {
    var r := SetupFaceDetection(b, outcome, Initial);
    if r.detectorReady {
      RunKeepsInvariants(v, true, frames, r.state, false);
    } else {
      RunWithoutDetector(v, frames, r.state, false);
    }
  }
}

=== FILE: state.dfy ===
/** The attention record that the face-landmarks hook keeps in React state,
    its initial value, and the face samples the landmark detector hands back.
    Both hook variants (use-face-landmarks.ts and use-face-landmarks.tsx)
    declare the same record and the same initial value. */
module FaceState {

  datatype Option<T> = None | Some(value: T)

  datatype CameraStatus = Initializing | Ready | Error
  datatype PermissionStatus = Prompt | Granted | Denied
  datatype EyeStatus = Open | Closed | Unknown

  /** The eight-field state record. `lastDetectionTime` is `null` or the clock
      reading taken when a sample was last published; the clock is an input
      of the model, so a reading is just an `int`. */
  datatype FaceLandmarksState = FaceLandmarksState(
    isWatching: bool,
    cameraStatus: CameraStatus,
    lastError: string,
    permissionStatus: PermissionStatus,
    faceDetectionStatus: string,
    lastDetectionTime: Option<int>,
    eyeStatus: EyeStatus,
    attentiveness: int)

  /** The value `useState` starts from. */
  const Initial := FaceLandmarksState(
    isWatching := false,
    cameraStatus := Initializing,
    lastError := "",
    permissionStatus := Prompt,
    faceDetectionStatus := "Not started",
    lastDetectionTime := None,
    eyeStatus := Unknown,
    attentiveness := 0)

  /** The consistency every update of the hook keeps: nobody watching means
      an attentiveness of zero, somebody watching means a nonzero
      attentiveness and a known eye status, and a camera error means nobody
      watching. */
  predicate Consistent(s: FaceLandmarksState)
  {
    (!s.isWatching ==> s.attentiveness == 0) &&
    (s.isWatching ==> s.attentiveness != 0 && s.eyeStatus != Unknown) &&
    (s.cameraStatus == Error ==> !s.isWatching)
  }

  lemma InitialConsistent()
    ensures Consistent(Initial)
    ensures !Initial.isWatching && Initial.eyeStatus == Unknown && Initial.attentiveness == 0
    ensures Initial.cameraStatus == Initializing && Initial.permissionStatus == Prompt
    ensures Initial.lastDetectionTime == None && Initial.lastError == ""
  {
  }

  /** `Math.abs` on a coordinate difference or an angle. */
  function Abs(x: real): real
  {
    if x < 0.0 then -x else x
  }

  /** A keypoint of the face mesh, in video-frame pixels. */
  datatype Keypoint = Keypoint(x: real, y: real)

  /** `face.rotation.angle`: each axis may be missing. */
  datatype Angle = Angle(y: Option<real>, z: Option<real>)

  /** `face.rotation`: present or not, and when present its `angle` may be missing. */
  datatype Rotation = Rotation(angle: Option<Angle>)

  datatype Face = Face(keypoints: seq<Keypoint>, rotation: Option<Rotation>)

  /** What one call of `detector.estimateFaces` gives: the faces found, or a
      rejected promise. */
  datatype Estimate = EstimationFailed | Faces(faces: seq<Face>)

  /** A thrown value: an `Error` with its message, or anything else. */
  datatype Thrown = ErrorObject(message: string) | OtherValue

  /** `error instanceof Error ? error.message : "Unknown error"` */
  function ErrorText(e: Thrown): string
  {
    match e
    case ErrorObject(m) => m
    case OtherValue => "Unknown error"
  }
}

=== FILE: threshold_attention.dfy ===
/** The face branch of the use-face-landmarks.tsx hook: each eye is open when
    its upper and lower eyelid keypoints are more than 7 pixels apart
    vertically, and the score has two levels. */
module ThresholdAttention {
  import opened FaceState

  /** The vertical gap, in pixels, above which an eye counts as open. */
  const OpenGap: real := 7.0

  /** Upper and lower eyelid keypoints of the right and the left eye in the
      face mesh. */
  const RightUpper: nat := 386
  const RightLower: nat := 374
  const LeftUpper: nat := 159
  const LeftLower: nat := 145

  function VerticalGap(upper: Keypoint, lower: Keypoint): (r: real)
    ensures r >= 0.0
    ensures r == upper.y - lower.y || r == lower.y - upper.y
  {
    Abs(upper.y - lower.y)
  }

  /** `isEyeOpen`: the eye is open iff the eyelids are STRICTLY more than 7
      pixels apart, one above the other or the other way round. */
  function IsEyeOpen(upper: Keypoint, lower: Keypoint): (r: bool)
    ensures r <==> upper.y - lower.y > OpenGap || lower.y - upper.y > OpenGap
  {
    VerticalGap(upper, lower) > OpenGap
  }

  /** The test is symmetric: swapping the two keypoints changes nothing. */
  lemma IsEyeOpenSymmetric(a: Keypoint, b: Keypoint)
    ensures IsEyeOpen(a, b) == IsEyeOpen(b, a)
  {
  }

  /** A gap of exactly 7 pixels is a closed eye. */
  lemma GapOfSevenIsClosed(upper: Keypoint, lower: Keypoint)
    requires upper.y - lower.y == 7.0 || lower.y - upper.y == 7.0
    ensures !IsEyeOpen(upper, lower)
  {
  }

  /** `isEyeOpen(landmarks[upper], landmarks[lower])` as JavaScript runs it:
      reading `.y` of a keypoint past the end of the array throws (None). */
  function EyeOpenAt(keypoints: seq<Keypoint>, upper: nat, lower: nat): Option<bool>
  {
    if upper < |keypoints| && lower < |keypoints|
    then Some(IsEyeOpen(keypoints[upper], keypoints[lower]))
    else None
  }

  /** `checkEyesOpen` of this variant: the right eye is tested first, then
      the left; a throw on a short keypoint array is caught and reported as
      closed eyes. Both eyes must be open. */
  function CheckEyesOpen(keypoints: seq<Keypoint>): (r: bool)
    ensures |keypoints| <= RightUpper ==> !r
    ensures |keypoints| > RightUpper ==>
      (r <==> IsEyeOpen(keypoints[RightUpper], keypoints[RightLower]) &&
              IsEyeOpen(keypoints[LeftUpper], keypoints[LeftLower]))
  {
    match EyeOpenAt(keypoints, RightUpper, RightLower)
    case None => false
    case Some(rightEye) =>
      match EyeOpenAt(keypoints, LeftUpper, LeftLower)
      case None => false
      case Some(leftEye) => leftEye && rightEye
  }

  /** Eyelid gaps of 10 pixels on both eyes are open eyes; gaps of 3 pixels
      on both are closed ones. */
  lemma EyelidGapScenarios(keypoints: seq<Keypoint>, gap: real)
    requires |keypoints| > RightUpper
    requires keypoints[RightUpper].y - keypoints[RightLower].y == gap
    requires keypoints[LeftUpper].y - keypoints[LeftLower].y == gap
    ensures gap == 10.0 ==> CheckEyesOpen(keypoints)
    ensures gap == 3.0 ==> !CheckEyesOpen(keypoints)
  {
  }

  /** `isEyesOpen ? 100 : 50` */
  function TwoLevelScore(eyesOpen: bool): (r: int)
    ensures r == 100 || r == 50
    ensures r == 100 <==> eyesOpen
  {
    if eyesOpen then 100 else 50
  }
}

=== FILE: weighted_attention.dfy ===
/** The face branch of the use-face-landmarks.ts hook: an eye check that only
    asks which keypoints exist, and a weighted score built from the eye flag
    and the head's yaw and roll. */
module WeightedAttention {
  import opened FaceState

  /** `landmarks[i]` is a keypoint object, so truthy, exactly when `i` is an
      index of the array; beyond the end it is `undefined`. */
  predicate Present(keypoints: seq<Keypoint>, i: nat)
  {
    i < |keypoints|
  }

  /** `checkEyesOpen` of this variant. On the keypoint array the properties
      `leftEye` and `rightEye` are `undefined`, so each eye falls through to
      the numbered keypoints; nothing in it can throw on an array. The result
      depends on the length alone: it holds iff keypoint 263 exists. */
  function CheckEyesOpen(keypoints: seq<Keypoint>): (r: bool)
    ensures r <==> |keypoints| > 263
  {
    var leftEye := Present(keypoints, 33) || Present(keypoints, 159);
    var rightEye := Present(keypoints, 263) || Present(keypoints, 386);
    leftEye && rightEye
  }

  /** The eye check never looks at coordinates: two keypoint arrays of the
      same length always get the same answer. */
  lemma EyeCheckIgnoresCoordinates(a: seq<Keypoint>, b: seq<Keypoint>)
    requires |a| == |b|
    ensures CheckEyesOpen(a) == CheckEyesOpen(b)
  {
  }

  function Min(a: real, b: real): real
  {
    if a <= b then a else b
  }

  function Max(a: real, b: real): real
  {
    if a <= b then b else a
  }

  /** `Math.max(lo, Math.min(hi, x))` */
  function Clamp(lo: real, hi: real, x: real): real
  {
    Max(lo, Min(hi, x))
  }

  /** Yaw and roll as `(face as any).rotation?.angle.y || 0` and `.z || 0`
      read them: a face without `rotation` counts as upright, a missing axis
      as zero, and a `rotation` without `angle` makes the read throw (None). */
  function ReadRotation(rotation: Option<Rotation>): (r: Option<(real, real)>)
    ensures r.None? <==> rotation.Some? && rotation.value.angle.None?
    ensures rotation.None? ==> r == Some((0.0, 0.0))
  {
    match rotation
    case None => Some((0.0, 0.0))
    case Some(Rotation(None)) => None
    case Some(Rotation(Some(Angle(y, z)))) =>
      Some((if y.Some? then y.value else 0.0, if z.Some? then z.value else 0.0))
  }

  /** Degrees of yaw at which the yaw term has fallen to zero. */
  const YawSpan: real := 30.0
  /** Degrees of roll at which the roll term has fallen to zero. */
  const RollSpan: real := 20.0

  /** `Math.max(0, Math.min(1, 1 - |angle| / span))`: one for a face held
      straight, falling linearly to zero at `span` degrees either way. */
  function NormalizedRotation(angle: real, span: real): (r: real)
    requires span > 0.0
    ensures 0.0 <= r <= 1.0
    ensures r == 1.0 <==> angle == 0.0
    ensures r == 0.0 <==> Abs(angle) >= span
    ensures Abs(angle) <= span ==> r == 1.0 - Abs(angle) / span
  {
    Clamp(0.0, 1.0, 1.0 - Abs(angle) / span)
  }

  /** The score before the outer clamp: a base of 60 plus up to 40 points,
      half for open eyes, three tenths for yaw and two tenths for roll. */
  function RawScore(eyesOpen: bool, yaw: real, roll: real): real
  {
    60.0 + ((if eyesOpen then 0.5 else 0.0) +
            NormalizedRotation(yaw, YawSpan) * 0.3 +
            NormalizedRotation(roll, RollSpan) * 0.2) * 40.0
  }

  /** `attentivenessScore`, clamped to [0, 100]; with a face present it never
      drops below the base of 60. */
  function Score(eyesOpen: bool, yaw: real, roll: real): (r: real)
    ensures 60.0 <= r <= 100.0
  {
    Clamp(0.0, 100.0, RawScore(eyesOpen, yaw, roll))
  }

  /** The outer clamp never binds: the weights add up to one, so the raw
      score is already within [60, 100]. */
  lemma ClampNeverBinds(eyesOpen: bool, yaw: real, roll: real)
    ensures Score(eyesOpen, yaw, roll) == RawScore(eyesOpen, yaw, roll)
  {
  }

  /** `Math.round` on a real: the nearest integer, halves rounded up. */
  function Round(x: real): (r: int)
    ensures x - 0.5 < r as real <= x + 0.5
  {
    (x + 0.5).Floor
  }

  lemma RoundMonotone(x: real, y: real)
    requires x <= y
    ensures Round(x) <= Round(y)
  {
  }

  /** The attentiveness published for a face: the rounded score. */
  function Attentiveness(eyesOpen: bool, yaw: real, roll: real): (r: int)
    ensures 60 <= r <= 100
  {
    Round(Score(eyesOpen, yaw, roll))
  }

  /** A face held straight scores 100 with open eyes and 80 with closed ones. */
  lemma UprightFace()
    ensures Attentiveness(true, 0.0, 0.0) == 100
    ensures Attentiveness(false, 0.0, 0.0) == 80
  {
  }

  /** A face turned or tilted at least as far as the spans scores the base of
      60 with closed eyes and 80 with open ones. */
  lemma FaceTurnedAway(yaw: real, roll: real)
    requires Abs(yaw) >= YawSpan && Abs(roll) >= RollSpan
    ensures Attentiveness(false, yaw, roll) == 60
    ensures Attentiveness(true, yaw, roll) == 80
  {
  }

  /** Open eyes are worth exactly 20 points, whatever the head does. */
  lemma OpenEyesAddTwenty(yaw: real, roll: real)
    ensures Attentiveness(true, yaw, roll) == Attentiveness(false, yaw, roll) + 20
  {
    ClampNeverBinds(true, yaw, roll);
    ClampNeverBinds(false, yaw, roll);
    assert Score(true, yaw, roll) == Score(false, yaw, roll) + 20.0;
  }

  lemma NormalizedRotationAntitone(a: real, b: real, span: real)
    requires span > 0.0
    requires Abs(a) <= Abs(b)
    ensures NormalizedRotation(b, span) <= NormalizedRotation(a, span)
  {
    assert Abs(a) / span <= Abs(b) / span;
  }

  /** With the eye flag fixed, turning or tilting the head further never
      raises the attentiveness. */
  lemma ScoreNeverRisesWithRotation(eyesOpen: bool, yaw1: real, roll1: real, yaw2: real, roll2: real)
    requires Abs(yaw1) <= Abs(yaw2) && Abs(roll1) <= Abs(roll2)
    ensures Attentiveness(eyesOpen, yaw2, roll2) <= Attentiveness(eyesOpen, yaw1, roll1)
  {
    NormalizedRotationAntitone(yaw1, yaw2, YawSpan);
    NormalizedRotationAntitone(roll1, roll2, RollSpan);
    ClampNeverBinds(eyesOpen, yaw1, roll1);
    ClampNeverBinds(eyesOpen, yaw2, roll2);
    RoundMonotone(Score(eyesOpen, yaw2, roll2), Score(eyesOpen, yaw1, roll1));
  }
}
